=== FILE: README.md ===
# json-to-lokalise, modelled in Dafny

`index.ts` extracts the translatable strings of a master localisation document.
It walks the parsed document depth-first (`handleObject`, `handleArray`) and
builds a dotted breadcrumb path for every string it reaches. `add` then filters
each string: it drops empty values, values `isNaN` accepts as numbers, and
leaves whose key, value or breadcrumb matches a rule of the denylist
(`isBlacklisted`). For each string it keeps, `add` looks up the same breadcrumb
in every configured locale's document with lodash `get`. It records the result
under the master string, or `""` when the lookup gives a falsy value.

The model covers that core, in these modules:

- `JsonTree` (`json.dfy`): the parsed document as a tree. It also defines the
  JavaScript truthiness of a value, whether a `null` is reachable, and `Texts`, a
  reference list of a tree's strings in document order.
- `Denylist` (`denylist.dfy`):
  - the fragment of JavaScript regular expressions the denylist uses (`^`, `$`,
    literals, `[a-b]`) with `RegExp.prototype.test` semantics;
  - the twenty-one rules in source order;
  - `isBlacklisted`.
- `Numeric` (`numeric.dfy`): `!isNaN(s)` for a string. It is a recogniser for the
  StringToNumber grammar of the ECMAScript specification (section 7.1.4.1.1).
- `Lookup` (`lookup.dfy`): lodash `get` for dotted paths over parsed values, and
  `k.toString()` for array indices.
- `Traversal` (`traversal.dfy`): `handleObject` and `handleArray`. They return the
  `(key, masterValue, breadcrumb)` triples they would pass to `add`, in call
  order. `add` only reads the documents, so folding it over that sequence
  afterwards gives the same run.
- `Resolver` (`resolver.dfy`): `add` and the fold of `add` over the walk.
  - The two string tests enter as a `Filter` value. `SourceFilter` binds them to
    `Numeric.IsNumeric` and `Denylist.IsBlacklisted`.
  - The per-locale maps are `map<string, Json>`, so that `translationValue || ""`
    keeps a truthy non-string value as it is.
- `Pipeline` (`pipeline.dfy`):
  - the run `handleObject(files[0].json, "")`, with the documents as inputs;
  - the configured English and Spanish locales.

A `null` anywhere under the master aborts the run. `typeof null === "object"`
sends it to `Object.entries(null)`, which throws, so the process ends before it
writes anything. The model returns `Err(NullNotObject)` for that case.

Four behaviours of `index.ts` are easy to misread, and the model keeps each as
the code has it:

- A `null` is not skipped. `typeof null === "object"` (index.ts:94, 115) sends
  it to `handleObject`, whose `Object.entries(null)` throws (see above).
- The breadcrumb drops the parent whenever the parent's breadcrumb is empty
  (index.ts:79). That is the case at the root, and also below a member named
  `""` at the root (or below a chain of such members).
  `Traversal.EmptyKeyLosesParent` shows the path that results, and shows that
  `get` does not find it. Deeper down, a member named `""` keeps the parent
  and leaves an empty segment in the path (`Traversal.EmptyKeyBelowRootKeepsParent`).
- `isNaN` (index.ts:56) accepts more than decimal numbers. It also accepts
  whitespace-only text, `Infinity`, and `0x`/`0o`/`0b` literals. The model
  recognises exactly what StringToNumber accepts.
- The rule `/^filename^/` (index.ts:26) ends in `^`, not `$`. Without the `m`
  flag, a `^` after a literal character can never hold, so the rule matches
  nothing. `Denylist.FilenameIsNotBlacklisted` states the consequence.

A master value of `"__proto__"` is never stored. The maps start as `{}`
literals (index.ts:14-15), so `translations["__proto__"] = …` (index.ts:73)
calls the inherited `__proto__` setter. That setter creates no own key, and
`JSON.stringify` writes only own keys. `Resolver.Add` makes no entry for that
value.

## Model

| member | source | states |
|---|---|---|
| Denylist.IsBlacklisted | index.ts:45-47 | defined as: the filter of the compiled rules by `test` is non-empty; `Denylist.BlacklistedIff` characterises it |
| Denylist.TestCompile | index.ts:22-42 | each rule shape, run with `test`, matches exactly: the whole name for `/^name$/`, nothing for `/^name^/`, and one class character followed by the rest for `/^[a-b]rest$/` |
| Denylist.MatchLits | index.ts:22-42 | a run of literal characters matches at an offset exactly when the input holds that text there and the rest of the pattern matches after it |
| Denylist.Matching | index.ts:46 | `filter` keeps exactly the rules whose `test` accepts the string |
| Denylist.MatchingNonEmptyIff | index.ts:45-47 | at least one compiled rule matches exactly when some rule shape accepts the string |
| Denylist.LayoutAccepts | index.ts:21-43 | a list laid out as names, `/^filename^/`, names, `/^[1-9]M$/`, names accepts a string exactly when it is one of the names or a digit 1-9 followed by `M` |
| Denylist.BlacklistedIff | index.ts:21-47 | `isBlacklisted(s)` holds exactly when `s` is one of the nineteen listed names or a digit from 1 to 9 followed by `M` |
| Denylist.FilenameIsNotBlacklisted | index.ts:26 | "filename" passes the denylist, because `/^filename^/` matches nothing |
| Numeric.IsNumeric | index.ts:56 | defined as: with white space trimmed from both ends, the text is empty, a `0b`/`0o`/`0x` integer, or an optionally signed decimal literal or `Infinity` |
| Numeric.DigitsAreNumeric | index.ts:56 | a run of decimal digits is numeric, so `add` skips it |
| Numeric.SignedFractionIsNumeric | index.ts:56 | a signed decimal fraction such as "-3.5" is numeric |
| Numeric.BlankIsNumeric | index.ts:56 | text made only of white space trims to nothing and counts as numeric (it converts to 0) |
| Numeric.NumericUsesAlphabet | index.ts:56 | a numeric-looking string uses only white space, hex digits, signs, `.`, `x`/`o` markers and the letters of `Infinity`, so a value with any other character is not skipped as numeric |
| Lookup.Get | index.ts:72 | defined as: split the path at every dot and take one property step per segment (object member, array index or `length`, string character or `length`), stopping at a missing value |
| Lookup.ParseDecimal | index.ts:106 | the rendering of an array index parses back to that index as a canonical lodash path segment |
| Lookup.DecimalOfParse | index.ts:106 | a segment that parses as an index is exactly that index's rendering (no sign, no leading zero) |
| Lookup.JoinSplit | index.ts:72 | joining the dot-split segments of a path with dots gives the path back |
| Lookup.SplitJoin | index.ts:79 | splitting a dot-join of dot-free pieces gives the pieces back |
| Lookup.SplitAppend | index.ts:79 | a path extended by `"." + key` splits into the old segments plus `key` |
| Lookup.MemberValue | index.ts:72 | an object lookup finds a value exactly when some member has that key, and the value it finds belongs to such a member |
| Lookup.MemberValueAt | index.ts:72 | with distinct keys, looking up a member's key returns that member's value |
| Lookup.WalkAppend | index.ts:72 | following one more segment is one more step from where the shorter path ends; a missing value stops the walk |
| Lookup.GetChild | index.ts:72 | `get(j, path + "." + key)` is one step into `key` from `get(j, path)` |
| Lookup.GetTop | index.ts:72 | `get(j, key)` for a dot-free key is one step from the root |
| Traversal.HandleObject | index.ts:77-101 | defined as: `Object.entries` of the value (members, array indices, string characters, nothing for numbers and booleans, a TypeError for `null`), each entry handled by the loop body of index.ts:79-99 |
| Traversal.HandleArray | index.ts:103-122 | defined as: the elements in index order, a string element passed on with its index as key, any `typeof "object"` element (arrays and `null` included) given to `handleObject` |
| Traversal.ObjectEntriesShape | index.ts:78-100 | the loop over the members from `i` on throws exactly when one of them holds a `null`, with the `Object.entries(null)` TypeError; otherwise it yields their strings in member order, each key ending its breadcrumb |
| Traversal.ArrayEntriesShape | index.ts:78-100 | the same loop over `Object.entries` of an array: it throws exactly when an element from `i` on holds a `null`, and otherwise yields their strings in index order |
| Traversal.HandleObjectShape | index.ts:77-101 | `handleObject` throws exactly when a `null` is reachable, and the error is the `Object.entries(null)` TypeError; otherwise every key ends its breadcrumb, and (except on a string root) the values are the document's strings in document order |
| Traversal.ObjectMemberShape | index.ts:78-100 | one member: throws exactly when its value holds a `null`; otherwise yields that value's strings, each key ending its breadcrumb |
| Traversal.HandleArrayShape | index.ts:103-122 | `handleArray` from index k: throws exactly when an element from k on holds a `null`; otherwise yields those elements' strings in index order |
| Traversal.ArrayItemShape | index.ts:104-121 | one element, nested arrays included: throws exactly when it holds a `null`; otherwise yields its strings with the index as key |
| Traversal.BreadcrumbsResolve | index.ts:77-122 | with distinct object keys that are non-empty and hold no `.`, `[` or `]`, `get` on the master at each breadcrumb of the walk from the root returns exactly the string that produced it |
| Traversal.LeafResolves | index.ts:72-79 | for one leaf of a successful walk from the root, with distinct keys that are non-empty and hold no `.`, `[` or `]`, `get` at its breadcrumb returns its string |
| Traversal.EmptyKeyLosesParent | index.ts:79 | below a member named "" at the root the breadcrumb drops the parent, so the leaf's breadcrumb is its bare key and `get` at that path finds nothing |
| Traversal.EmptyKeyBelowRootKeepsParent | index.ts:79 | below a member named "" deeper down the parent is kept: the leaf's breadcrumb is `outer..inner`, and `get` follows its empty segment back to the leaf's string |
| Resolver.Recorded | index.ts:73 | `translationValue \|\| ""`: a missing or falsy value gives `""`, and any truthy value found (a string, a non-zero number, `true`, an array or an object) is stored as it is |
| Resolver.Add | index.ts:49-75 | an ineligible leaf changes nothing, and neither does a master value `"__proto__"`. Any other eligible leaf sets, in every locale, the entry for the master value to that locale's lookup at the breadcrumb, adds exactly that key, and changes no other entry or field |
| Resolver.AddAll | index.ts:70-74 | defined as: `add` applied to each leaf of the walk in turn; it keeps the number of locales and each locale's code, file name and document |
| Resolver.LastWrite | index.ts:70-74 | the position of the last storing leaf (eligible, and not `"__proto__"`) with a given master value; no later leaf writes that value |
| Resolver.StoredValuesAreValues | index.ts:49-67 | every master value `add` keeps is the value of some leaf of the walk |
| Resolver.AddAllEffect | index.ts:70-74 | last writer wins: after all calls, a master value maps in each locale to the lookup at the breadcrumb of the last storing leaf with that value; values nobody wrote are unchanged |
| Resolver.AddAllKeys | index.ts:70-74 | after all calls, a locale's keys are its old keys plus exactly the stored master values (eligible, and not `"__proto__"`) |
| Resolver.AddAllKeepsSameKeys | index.ts:70-74 | every storing leaf writes to every locale, so locales that share a key set still share one afterwards |
| Pipeline.Execute | index.ts:133 | defined as: no master is an error; otherwise the walk of the master from the root with breadcrumb `""`, whose failure aborts the run, followed by `add` on every leaf |
| Pipeline.ExecuteFailsIffNull | index.ts:133 | the run fails exactly when there is no master or the master holds a `null`, and the failure is the TypeError |
| Pipeline.ExecuteKeys | index.ts:70-74 | from empty maps, all locales end with the same keys: the master values of the storing leaves |
| Pipeline.ExecuteExcludes | index.ts:50-73 | no key of any locale's output is empty, `"__proto__"`, numeric-looking or on the denylist |
| Pipeline.ExecuteKeysFromMaster | index.ts:82-83 | every key of any locale's output is a string of the master document (for a non-string master) |
| Pipeline.ExecuteValues | index.ts:72-73 | each recorded value is the locale's lookup at the breadcrumb of the last storing leaf carrying that key, and `""` when that path is missing |
| Pipeline.MasterMapsToItself | index.ts:72-73 | with distinct keys that are non-empty and hold no `.`, `[` or `]`, the master locale's output maps every key to itself |
| Pipeline.Configured | index.ts:13-17 | the configuration holds two locales, each starting with an empty map; the first (the master) holds the English document and the second the Spanish one |
| Pipeline.ConfiguredRun | index.ts:13-17 | the configured run fails exactly when the English document holds a `null`; otherwise English and Spanish have the same keys, and English maps each key to itself when its keys are unique, non-empty and free of `.`, `[` and `]` |

## Left out

- Reading the files and `JSON.parse` (index.ts:126-130) are left out. The parsed documents are inputs of `Pipeline.Execute`, and a parse failure is not modelled.
- Formatting with prettier and writing `output-<locale>.json` (index.ts:136-142) are left out as I/O. The run ends with the per-locale maps.
- The order of keys in the output object is left out. The maps are unordered, and only their contents are stated.
- The unused regular expression `example` (index.ts:19) has no effect and is not modelled.
- The order of `Object.entries` is taken as the order of the members in the tree. JavaScript moves integer-like keys first; the tree is assumed to list members in that order already.
- Numbers are `real`. `JSON.parse` never yields `NaN`, `-0` is falsy like `0`, and the walk never reads a number beyond its truthiness.
- Lodash `get` is modelled only for dotted paths. Its bracket and quoted-segment syntax, the shortcut that first tries the whole path as one key, and inherited properties (`constructor`, `__proto__`, methods of strings and arrays other than `length`) are left out. A breadcrumb whose key contains `[` or `]` may resolve differently in lodash, so the round-trip lemmas (`Traversal.BreadcrumbsResolve`, `Traversal.LeafResolves`, `Pipeline.MasterMapsToItself`, `Pipeline.ConfiguredRun`) require keys without them (`JsonTree.PlainKey`).
- Resolver.Add: a write under `"__proto__"` is modelled as storing nothing. When the value found is an object, the setter also replaces the map's prototype. That matters only if a later write under `"__proto__"` finds the new prototype's own `__proto__` member, and this is not modelled.
- Lookup.Step: strings are sequences of code points, where JavaScript counts UTF-16 code units, so for characters outside the Basic Multilingual Plane the `length` of a string and its character indices differ; this matters when a locale holds a string where the master holds an array. A string root walked character by character (Traversal.CharLeaves) is split the same way.
- Lookup.Step: when a tree repeats a key in one object, the first member is found, and the walk visits both members. `JSON.parse` never builds such an object, because it keeps only the last value. `Lookup.MemberValueAt` and the round-trip lemmas therefore assume distinct keys.
- Pipeline.ExecuteKeysFromMaster: stated only for a master that is not a string. A string root yields its single characters, which are not the master's strings.
- Traversal.HandleObjectShape: the `Texts` clause excludes a string root for the same reason.

=== FILE: denylist.dfy ===
/** The denylist of `index.ts`: twenty-one JavaScript regular expressions, written
    with anchors and literal characters, one of them also a character class. The model
    gives that fragment of the regex language its JavaScript meaning (no flags:
    `^` holds only at offset 0, `$` only at the end of the input, `test` tries
    every start offset) and proves what the configured list excludes. */
module Denylist {

  /** One element of a flag-less regular expression of the fragment used here. */
  datatype Token =
    | Start                      // `^`
    | End                        // `$`
    | Lit(c: char)               // a literal character
    | Range(lo: char, hi: char)  // `[lo-hi]`

  type Pattern = seq<Token>

  /** The pattern matches `s` when started at offset `pos`. */
  predicate MatchAt(p: Pattern, s: string, pos: nat)
    requires pos <= |s|
    decreases |p|
  {
    if p == [] then true
    else match p[0]
      case Start => pos == 0 && MatchAt(p[1..], s, pos)
      case End => pos == |s| && MatchAt(p[1..], s, pos)
      case Lit(c) => pos < |s| && s[pos] == c && MatchAt(p[1..], s, pos + 1)
      case Range(lo, hi) => pos < |s| && lo <= s[pos] <= hi && MatchAt(p[1..], s, pos + 1)
  }

  /** `RegExp.prototype.test` of a non-global pattern: a match at some offset. */
  predicate Test(p: Pattern, s: string)
  {
    exists pos :: 0 <= pos <= |s| && MatchAt(p, s, pos)
  }

  /** The literal characters of `w`, in order. */
  function Lits(w: string): (p: Pattern)
    ensures |p| == |w|
  {
    if w == [] then [] else [Lit(w[0])] + Lits(w[1..])
  }

  /** The three shapes of rule the source writes. */
  datatype RuleForm =
    | Exact(text: string)                              // `/^text$/`
    | StartTwice(text: string)                         // `/^text^/`
    | ClassThen(lo: char, hi: char, text: string)      // `/^[lo-hi]text$/`

  /** The token sequence of a written rule. */
  function Compile(f: RuleForm): Pattern
  {
    match f
    case Exact(t) => [Start] + (Lits(t) + [End])
    case StartTwice(t) => [Start] + (Lits(t) + [Start])
    case ClassThen(lo, hi, t) => [Start] + ([Range(lo, hi)] + (Lits(t) + [End]))
  }

  /** What each shape of rule accepts, stated without regular expressions. */
  predicate Accepts(f: RuleForm, s: string)
  {
    match f
    case Exact(t) => s == t
    case StartTwice(t) => t == ""
    case ClassThen(lo, hi, t) => |s| == |t| + 1 && lo <= s[0] <= hi && s[1..] == t
  }

  /** The names the `/^name$/` rules exclude, in the order the source lists them:
      four before `/^filename^/`, fourteen between it and `/^[1-9]M$/`, one after. */
  const NamesBeforeFilename: seq<string> := ["userLevel", "listType", "initialLevelType", "badge"]
  const NamesBeforeDigitM: seq<string> := [
    "extension", "type", "image", "onPass", "code", "locale", "productType",
    "single-frame", "currency", "barColor", "textColor", "buttonStyle", "left", "large"
  ]
  const NamesAfterDigitM: seq<string> := ["#ME_FEE#"]
  const DeniedNames: seq<string> := NamesBeforeFilename + NamesBeforeDigitM + NamesAfterDigitM

  /** `/^n$/` for each name `n`, in order. */
  function ExactAll(names: seq<string>): (fs: seq<RuleForm>)
    ensures |fs| == |names|
    ensures forall i :: 0 <= i < |names| ==> fs[i] == Exact(names[i])
  {
    if names == [] then [] else [Exact(names[0])] + ExactAll(names[1..])
  }

  /** The rules in the order the source lists them: four names, `/^filename^/`
      (ending in `^`, so it matches nothing), fourteen names, `/^[1-9]M$/`, one name. */
  const Forms: seq<RuleForm> := Layout(NamesBeforeFilename, NamesBeforeDigitM, NamesAfterDigitM)

  function Layout(a: seq<string>, b: seq<string>, c: seq<string>): seq<RuleForm>
  {
    ExactAll(a) + [StartTwice("filename")] + ExactAll(b) + [ClassThen('1', '9', "M")] + ExactAll(c)
  }

  /** The compiled rules, in the same order. */
  function CompileAll(fs: seq<RuleForm>): (ps: seq<Pattern>)
    ensures |ps| == |fs|
    ensures forall i :: 0 <= i < |fs| ==> ps[i] == Compile(fs[i])
  {
    if fs == [] then [] else [Compile(fs[0])] + CompileAll(fs[1..])
  }

  const Rules: seq<Pattern> := CompileAll(Forms)

  /** A digit from 1 to 9 followed by `M`, as in "5M". */
  predicate IsDigitM(s: string)
  {
    |s| == 2 && '1' <= s[0] <= '9' && s[1] == 'M'
  }

  /** `rules.filter((rule) => rule.test(s))` */
  function Matching(rules: seq<Pattern>, s: string): (r: seq<Pattern>)
    ensures forall p :: p in r <==> p in rules && Test(p, s)
  {
    if rules == [] then []
    else (if Test(rules[0], s) then [rules[0]] else []) + Matching(rules[1..], s)
  }

  /** `isBlacklisted(s)`: at least one configured rule matches. */
  predicate IsBlacklisted(s: string)
  {
    |Matching(Rules, s)| > 0
  }

  /** A slice equals a non-empty word exactly when its first character and the
      rest agree. */
  lemma SliceSplit(s: string, w: string, pos: nat)
    requires 0 < |w| && pos + |w| <= |s|
    ensures s[pos..pos + |w|] == w <==> s[pos] == w[0] && s[pos + 1..pos + |w|] == w[1..]
  {
    var t := s[pos..pos + |w|];
    assert t[0] == s[pos] && t[1..] == s[pos + 1..pos + |w|];
    if s[pos] == w[0] && s[pos + 1..pos + |w|] == w[1..] {
      assert t == [t[0]] + t[1..] && w == [w[0]] + w[1..];
    }
  }

  /** A literal at the head of a pattern consumes one equal character. */
  lemma MatchLitHead(c: char, q: Pattern, s: string, pos: nat)
    requires pos <= |s|
    ensures MatchAt([Lit(c)] + q, s, pos) <==> pos < |s| && s[pos] == c && MatchAt(q, s, pos + 1)
  {
    var p := [Lit(c)] + q;
    assert p[0] == Lit(c) && p[1..] == q;
  }

  /** Matching a run of literals consumes exactly that text. */
  lemma {:induction false} MatchLits(w: string, rest: Pattern, s: string, pos: nat)
    requires pos <= |s|
    ensures MatchAt(Lits(w) + rest, s, pos) <==>
              pos + |w| <= |s| && s[pos..pos + |w|] == w && MatchAt(rest, s, pos + |w|)
    decreases |w|
  {
    if w == [] {
      assert Lits(w) + rest == rest;
    } else {
      var q := Lits(w[1..]) + rest;
      assert Lits(w) + rest == [Lit(w[0])] + q;
      MatchLitHead(w[0], q, s, pos);
      if pos < |s| {
        MatchLits(w[1..], rest, s, pos + 1);
        if pos + |w| <= |s| {
          SliceSplit(s, w, pos);
        }
      }
    }
  }

  /** A compiled rule matches exactly the strings its shape accepts. */
  lemma TestCompile(f: RuleForm, s: string)
    ensures Test(Compile(f), s) <==> Accepts(f, s)
  {
    var p := Compile(f);
    match f
    case Exact(t) =>
      assert p[1..] == Lits(t) + [End];
      MatchLits(t, [End], s, 0);
      if s == t {
        assert s[0..|t|] == t;
        assert MatchAt(p, s, 0);
      }
      if Test(p, s) {
        var pos :| 0 <= pos <= |s| && MatchAt(p, s, pos);
        assert s[0..|t|] == t;
      }
    case StartTwice(t) =>
      assert p[1..] == Lits(t) + [Start];
      MatchLits(t, [Start], s, 0);
      if t == "" {
        assert MatchAt(p, s, 0);
      }
    case ClassThen(lo, hi, t) =>
      var q := p[1..];
      assert q == [Range(lo, hi)] + (Lits(t) + [End]);
      assert q[0] == Range(lo, hi);
      assert q[1..] == Lits(t) + [End];
      if 0 < |s| {
        MatchLits(t, [End], s, 1);
      }
      if Accepts(f, s) {
        assert s[1..1 + |t|] == t;
        assert MatchAt(p, s, 0);
      }
      if Test(p, s) {
        var pos :| 0 <= pos <= |s| && MatchAt(p, s, pos);
        assert pos == 0 && MatchAt(q, s, 0);
        assert 0 < |s| && MatchAt(q[1..], s, 1);
        assert s[1..1 + |t|] == s[1..];
      }
  }

  /** Filtering compiled rules leaves something exactly when some rule's shape
      accepts `s`. */
  lemma {:induction false} MatchingNonEmptyIff(fs: seq<RuleForm>, s: string)
    ensures |Matching(CompileAll(fs), s)| > 0 <==> exists f :: f in fs && Accepts(f, s)
  {
    if fs != [] {
      var ps := CompileAll(fs);
      assert ps[1..] == CompileAll(fs[1..]);
      MatchingNonEmptyIff(fs[1..], s);
      TestCompile(fs[0], s);
      if f :| f in fs && Accepts(f, s) {
        if f != fs[0] {
          assert f in fs[1..];
        }
      }
    }
  }

  /** `isBlacklisted(s)` holds exactly when some written rule accepts `s`. */
  lemma BlacklistedIffSomeRule(s: string)
    ensures IsBlacklisted(s) <==> exists f :: f in Forms && Accepts(f, s)
  {
    MatchingNonEmptyIff(Forms, s);
  }

  /** Among `/^n$/` rules, some accepts `s` exactly when `s` is one of the names. */
  lemma {:induction false} ExactAllAccepts(names: seq<string>, s: string)
    ensures (exists f :: f in ExactAll(names) && Accepts(f, s)) <==> s in names
  {
    var fs := ExactAll(names);
    if s in names {
      var i :| 0 <= i < |names| && names[i] == s;
      assert fs[i] in fs && Accepts(fs[i], s);
    }
    if f :| f in fs && Accepts(f, s) {
      var i :| 0 <= i < |fs| && fs[i] == f;
      assert names[i] == s;
    }
  }

  /** A list laid out like the source's accepts the names it lists and the
      digit-M strings, nothing else. */
  lemma LayoutAccepts(a: seq<string>, b: seq<string>, c: seq<string>, s: string)
    ensures (exists f :: f in Layout(a, b, c) && Accepts(f, s)) <==> s in a + b + c || IsDigitM(s)
  {
    ExactAllAccepts(a, s);
    ExactAllAccepts(b, s);
    ExactAllAccepts(c, s);
    var fa, fb, fc := ExactAll(a), ExactAll(b), ExactAll(c);
    var fn, fd := StartTwice("filename"), ClassThen('1', '9', "M");
    assert !Accepts(fn, s);
    if IsDigitM(s) {
      assert fd in Layout(a, b, c) && Accepts(fd, s);
    }
    if s in a + b + c {
      assert s in a || s in b || s in c;
    }
    if f :| f in Layout(a, b, c) && Accepts(f, s) {
      assert f in fa || f == fn || f in fb || f == fd || f in fc;
    }
  }

  /** With the configured rules, `isBlacklisted(s)` holds exactly for the listed
      names and for a digit 1-9 followed by `M`; "filename" is not excluded. */
  lemma BlacklistedIff(s: string)
    ensures IsBlacklisted(s) <==> s in DeniedNames || IsDigitM(s)
  {
    BlacklistedIffSomeRule(s);
    LayoutAccepts(NamesBeforeFilename, NamesBeforeDigitM, NamesAfterDigitM, s);
  }

  /** Because a `^` after a literal never holds, `/^filename^/` matches nothing
      and leaves "filename" itself extractable. */
  lemma FilenameIsNotBlacklisted()
    ensures !IsBlacklisted("filename")
  {
    var s := "filename";
    assert s !in NamesBeforeFilename;
    assert s !in NamesBeforeDigitM;
    assert s !in NamesAfterDigitM;
    assert !IsDigitM(s);
    BlacklistedIff(s);
  }
}

=== FILE: json.dfy ===
/** The parsed JSON documents the extractor works on, and the facts about them
    that the traversal and the lookup depend on. */
module JsonTree {

  /** A value produced by `JSON.parse`. An object keeps its members in the order
      `Object.entries` reports them. */
  datatype Json =
    | JNull
    | JBool(b: bool)
    | JNum(n: real)
    | JStr(s: string)
    | JArr(items: seq<Json>)
    | JObj(entries: seq<(string, Json)>)

  /** JavaScript truthiness of a parsed value (`NaN` cannot come out of `JSON.parse`;
      `-0` and `0` are the same real). */
  predicate Truthy(j: Json)
  {
    match j
    case JNull => false
    case JBool(b) => b
    case JNum(n) => n != 0.0
    case JStr(s) => s != ""
    case JArr(_) => true
    case JObj(_) => true
  }

  /** Some `null` is reachable from `j` through objects and arrays. */
  predicate HasNull(j: Json)
  {
    match j
    case JNull => true
    case JArr(items) => exists i :: 0 <= i < |items| && HasNull(items[i])
    case JObj(es) => exists i :: 0 <= i < |es| && HasNull(es[i].1)
    case _ => false
  }

  /** The string values inside `j`, in document order: object members in entry
      order, array elements in index order, depth first. */
  function Texts(j: Json): seq<string>
  {
    match j
    case JStr(s) => [s]
    case JArr(items) => ItemTexts(items)
    case JObj(es) => EntryTexts(es)
    case _ => []
  }

  function ItemTexts(items: seq<Json>): seq<string>
  {
    if items == [] then [] else Texts(items[0]) + ItemTexts(items[1..])
  }

  function EntryTexts(es: seq<(string, Json)>): seq<string>
  {
    if es == [] then [] else
    var e := es[0];
    assert e in es;
    assert es decreases to e;
    Texts(e.1) + EntryTexts(es[1..])
  }

  /** A key that survives the dotted-path round trip: non-empty, and without a
      dot or a bracket (lodash reads `[` and `]` in a path as index syntax). */
  predicate PlainKey(k: string)
  {
    k != "" && '.' !in k && '[' !in k && ']' !in k
  }

  /** Every object inside `j` has distinct, plain keys. `JSON.parse` always yields
      distinct keys; plainness is what the breadcrumb scheme needs. */
  predicate KeysOk(j: Json)
  {
    match j
    case JArr(items) => forall i :: 0 <= i < |items| ==> KeysOk(items[i])
    case JObj(es) =>
      && (forall i :: 0 <= i < |es| ==> PlainKey(es[i].0))
      && (forall i, k :: 0 <= i < k < |es| ==> es[i].0 != es[k].0)
      && (forall i :: 0 <= i < |es| ==> KeysOk(es[i].1))
    case _ => true
  }
}

=== FILE: lookup.dfy ===
/** lodash `get(tree, path)` as the extractor uses it: the breadcrumb is split on
    `.` and each segment selects an own member of an object, an element of an
    array or a character of a string (or the `length` of the latter two), the
    way JavaScript's `value[segment]` does for parsed JSON values. */
module Lookup {
  import opened Wrappers
  import opened JsonTree
  import opened Numeric

  /** The decimal digit character for `d`. */
  function DigitChar(d: nat): (c: char)
    requires d < 10
    ensures '0' <= c <= '9'
  {
    ('0' as int + d) as char
  }

  /** `k.toString()` for a non-negative integer `k`. */
  function Decimal(k: nat): (s: string)
    ensures |s| > 0
  {
    if k < 10 then [DigitChar(k)] else Decimal(k / 10) + [DigitChar(k % 10)]
  }

  /** The number a run of decimal digits denotes. */
  function DigitsValue(s: string): nat
    requires AllDigits(s)
  {
    if s == [] then 0
    else
      var last := s[|s| - 1];
      assert IsDecimalDigit(last);
      10 * DigitsValue(s[..|s| - 1]) + (last as int - '0' as int)
  }

  /** The array index a property name denotes: the canonical decimal form of a
      non-negative integer (no sign, no leading zero), or nothing. */
  function ParseIndex(s: string): Option<nat>
  {
    if s == [] || !AllDigits(s) || (|s| > 1 && s[0] == '0') then None
    else Some(DigitsValue(s))
  }

  /** `Decimal` renders digits only, without a leading zero, denoting `k`. */
  lemma {:induction false} DecimalShape(k: nat)
    ensures AllDigits(Decimal(k))
    ensures |Decimal(k)| > 1 ==> Decimal(k)[0] != '0'
    ensures DigitsValue(Decimal(k)) == k
  {
    if k >= 10 {
      DecimalShape(k / 10);
      var p := Decimal(k / 10);
      var s := Decimal(k);
      assert s == p + [DigitChar(k % 10)];
      assert s[..|s| - 1] == p;
      if |p| == 1 {
        assert p[0] != '0';
      }
    }
  }

  /** Rendering an index and reading it back gives the index. */
  lemma ParseDecimal(k: nat)
    ensures ParseIndex(Decimal(k)) == Some(k)
  {
    DecimalShape(k);
  }

  lemma {:induction false} LeadingDigitValue(s: string)
    requires IsDigits(s)
    requires s[0] != '0'
    ensures DigitsValue(s) >= 1
  {
    if |s| > 1 {
      LeadingDigitValue(s[..|s| - 1]);
    }
  }

  /** Every name that reads as an index is the rendering of that index, so
      `Decimal` and `ParseIndex` are inverse bijections. */
  lemma {:induction false} DecimalOfParse(s: string)
    requires ParseIndex(s).Some?
    ensures Decimal(ParseIndex(s).value) == s
    decreases |s|
  {
    var k := ParseIndex(s).value;
    if |s| == 1 {
      assert s[..0] == [];
      assert DigitsValue(s[..0]) == 0;
      assert k == DigitsValue(s);
      assert k == s[0] as int - '0' as int;
      assert Decimal(k) == [s[0]];
    } else {
      var p := s[..|s| - 1];
      assert p[0] == s[0];
      LeadingDigitValue(p);
      assert ParseIndex(p) == Some(DigitsValue(p));
      DecimalOfParse(p);
      assert k / 10 == DigitsValue(p) && k % 10 == s[|s| - 1] as int - '0' as int;
      assert s == p + [s[|s| - 1]];
    }
  }

  /** The offset of the first `.` in `s`, or `|s|`. */
  function DotAt(s: string): (i: nat)
    ensures i <= |s|
    ensures i < |s| ==> s[i] == '.'
    ensures forall j :: 0 <= j < i ==> s[j] != '.'
  {
    if s == [] || s[0] == '.' then 0 else 1 + DotAt(s[1..])
  }

  /** The segments of a path: the maximal dot-free pieces between dots. */
  function Split(path: string): (segs: seq<string>)
    ensures |segs| > 0
    ensures forall i :: 0 <= i < |segs| ==> '.' !in segs[i]
    decreases |path|
  {
    var i := DotAt(path);
    if i == |path| then [path] else [path[..i]] + Split(path[i + 1..])
  }

  /** `segs.join(".")` */
  function JoinDots(segs: seq<string>): string
    requires |segs| > 0
  {
    if |segs| == 1 then segs[0] else segs[0] + "." + JoinDots(segs[1..])
  }

  /** Joining a head segment before a non-empty list puts one dot between. */
  lemma JoinCons(head: string, rest: seq<string>)
    requires |rest| > 0
    ensures JoinDots([head] + rest) == head + "." + JoinDots(rest)
  {
    var segs := [head] + rest;
    assert segs[0] == head && segs[1..] == rest;
  }

  /** A path with a dot is the piece before it, the dot, and the rest. */
  lemma CutAtDot(path: string, i: nat)
    requires i < |path| && path[i] == '.'
    ensures path == path[..i] + "." + path[i + 1..]
  {
    assert path == path[..i] + [path[i]] + path[i + 1..];
  }

  /** Joining the pieces of a path gives the path back. */
  lemma {:induction false} JoinSplit(path: string)
    ensures JoinDots(Split(path)) == path
    decreases |path|
  {
    var i := DotAt(path);
    if i < |path| {
      var head, tail := path[..i], path[i + 1..];
      assert Split(path) == [head] + Split(tail);
      JoinSplit(tail);
      JoinCons(head, Split(tail));
      CutAtDot(path, i);
    } else {
      assert Split(path) == [path];
    }
  }

  lemma {:induction false} DotAtFree(s: string)
    requires '.' !in s
    ensures DotAt(s) == |s|
  {
    if s != [] {
      DotAtFree(s[1..]);
    }
  }

  lemma {:induction false} DotAtPrefix(a: string, b: string)
    requires '.' !in a
    ensures DotAt(a + "." + b) == |a|
  {
    if a != [] {
      assert (a + "." + b)[1..] == a[1..] + "." + b;
      DotAtPrefix(a[1..], b);
    }
  }

  /** A dot-free head followed by a dot splits off as the first segment. */
  lemma SplitAfterHead(head: string, rest: string)
    requires '.' !in head
    ensures Split(head + "." + rest) == [head] + Split(rest)
  {
    var s := head + "." + rest;
    DotAtPrefix(head, rest);
    assert s[..|head|] == head;
    assert s[|head| + 1..] == rest;
  }

  /** Splitting a join of dot-free pieces gives the pieces back. */
  lemma {:induction false} SplitJoin(segs: seq<string>)
    requires |segs| > 0
    requires forall i :: 0 <= i < |segs| ==> '.' !in segs[i]
    ensures Split(JoinDots(segs)) == segs
  {
    if |segs| == 1 {
      DotAtFree(segs[0]);
    } else {
      var head, tail := segs[0], segs[1..];
      assert segs == [head] + tail;
      JoinCons(head, tail);
      SplitAfterHead(head, JoinDots(tail));
      forall i | 0 <= i < |tail| ensures '.' !in tail[i] {
        assert tail[i] == segs[i + 1];
      }
      SplitJoin(tail);
    }
  }

  /** Appending `"." + key` to a path appends one segment. */
  lemma {:induction false} SplitAppend(path: string, key: string)
    requires '.' !in key
    ensures Split(path + "." + key) == Split(path) + [key]
    decreases |path|
  {
    var i := DotAt(path);
    if i == |path| {
      assert '.' !in path;
      SplitAfterHead(path, key);
      SplitPlain(key);
    } else {
      var head, tail := path[..i], path[i + 1..];
      assert '.' !in head by {
        forall k | 0 <= k < |head| ensures head[k] != '.' {
          assert head[k] == path[k];
        }
      }
      CutAtDot(path, i);
      assert path + "." + key == head + "." + (tail + "." + key);
      SplitAfterHead(head, tail + "." + key);
      SplitAppend(tail, key);
      assert Split(path) == [head] + Split(tail);
    }
  }

  /** A dot-free path is a single segment. */
  lemma SplitPlain(key: string)
    requires '.' !in key
    ensures Split(key) == [key]
  {
    DotAtFree(key);
  }

  /** The value of the first member named `key` (JSON.parse never yields two). */
  function MemberValue(es: seq<(string, Json)>, key: string): (r: Option<Json>)
    ensures r.None? <==> forall i :: 0 <= i < |es| ==> es[i].0 != key
    ensures r.Some? ==> exists i :: 0 <= i < |es| && es[i] == (key, r.value)
  {
    if es == [] then None
    else if es[0].0 == key then Some(es[0].1)
    else
      var r := MemberValue(es[1..], key);
      assert r.Some? ==> exists i :: 0 <= i < |es[1..]| && es[1..][i] == (key, r.value);
      r
  }

  /** With distinct keys, a member is found by its own name. */
  lemma {:induction false} MemberValueAt(es: seq<(string, Json)>, i: nat)
    requires i < |es|
    requires forall a, b :: 0 <= a < b < |es| ==> es[a].0 != es[b].0
    ensures MemberValue(es, es[i].0) == Some(es[i].1)
  {
    if i > 0 {
      MemberValueAt(es[1..], i - 1);
    }
  }

  /** `value[segment]` for a parsed value; `None` is `undefined`. */
  function Step(j: Json, seg: string): Option<Json>
  {
    match j
    case JObj(es) => MemberValue(es, seg)
    case JArr(items) =>
      if seg == "length" then Some(JNum(|items| as real))
      else (match ParseIndex(seg)
            case Some(i) => if i < |items| then Some(items[i]) else None
            case None => None)
    case JStr(s) =>
      if seg == "length" then Some(JNum(|s| as real))
      else (match ParseIndex(seg)
            case Some(i) => if i < |s| then Some(JStr([s[i]])) else None
            case None => None)
    case _ => None
  }

  /** Following segments one after another; `null` and `undefined` stop the walk. */
  function Walk(j: Json, segs: seq<string>): Option<Json>
    decreases |segs|
  {
    if segs == [] then Some(j)
    else match Step(j, segs[0])
      case None => None
      case Some(c) => Walk(c, segs[1..])
  }

  /** lodash `get(j, path)` without a default. */
  function Get(j: Json, path: string): Option<Json>
  {
    Walk(j, Split(path))
  }

  /** A walk one segment longer is one more step from where the shorter walk ends. */
  lemma {:induction false} WalkAppend(j: Json, segs: seq<string>, seg: string)
    ensures Walk(j, segs + [seg]) ==
      (match Walk(j, segs) case None => None case Some(c) => Step(c, seg))
    decreases |segs|
  {
    if segs != [] {
      assert (segs + [seg])[1..] == segs[1..] + [seg];
      match Step(j, segs[0])
      case None =>
      case Some(c) => WalkAppend(c, segs[1..], seg);
    }
  }

  /** `get(j, path + "." + key)` steps into `key` from `get(j, path)`. */
  lemma GetChild(j: Json, path: string, key: string)
    requires '.' !in key
    ensures Get(j, path + "." + key) ==
      (match Get(j, path) case None => None case Some(c) => Step(c, key))
  {
    SplitAppend(path, key);
    WalkAppend(j, Split(path), key);
  }

  /** `get(j, key)` for a dot-free key is one step. */
  lemma GetTop(j: Json, key: string)
    requires '.' !in key
    ensures Get(j, key) == Step(j, key)
  {
    SplitPlain(key);
    WalkAppend(j, [], key);
    assert [] + [key] == [key];
  }

  /** A rendered index never contains a dot. */
  lemma DecimalIsPlain(k: nat)
    ensures '.' !in Decimal(k)
  {
    DecimalShape(k);
  }
}

=== FILE: numeric.dfy ===
/** `!isNaN(s)` for a string `s`: JavaScript converts `s` with the StringToNumber
    grammar of the ECMAScript specification (section 7.1.4.1.1) and the result is
    `NaN` exactly when the text, stripped of surrounding white space, is neither
    empty nor a numeric literal. The model recognises that grammar; it never
    computes the number. */
module Numeric {

  /** WhiteSpace and LineTerminator code points of ECMAScript (sections 12.2 and 12.3). */
  const WhiteSpace: set<char> := {
    '\t', '\n', '\U{B}', '\U{C}', '\r', ' ', '\U{A0}', '\U{1680}',
    '\U{2000}', '\U{2001}', '\U{2002}', '\U{2003}', '\U{2004}', '\U{2005}',
    '\U{2006}', '\U{2007}', '\U{2008}', '\U{2009}', '\U{200A}',
    '\U{2028}', '\U{2029}', '\U{202F}', '\U{205F}', '\U{3000}', '\U{FEFF}'
  }

  predicate IsWhiteSpace(c: char) { c in WhiteSpace }
  predicate IsDecimalDigit(c: char) { '0' <= c <= '9' }
  predicate IsBinaryDigit(c: char) { c == '0' || c == '1' }
  predicate IsOctalDigit(c: char) { '0' <= c <= '7' }
  predicate IsHexDigit(c: char) { '0' <= c <= '9' || 'a' <= c <= 'f' || 'A' <= c <= 'F' }

  predicate AllDigits(s: string)
  {
    forall i :: 0 <= i < |s| ==> IsDecimalDigit(s[i])
  }

  /** DecimalDigits: one or more decimal digits. */
  predicate IsDigits(s: string)
  {
    |s| > 0 && AllDigits(s)
  }

  function TrimStart(s: string): (t: string)
    ensures |t| <= |s| && t == s[|s| - |t|..]
    ensures t != [] ==> !IsWhiteSpace(t[0])
    ensures forall i :: 0 <= i < |s| - |t| ==> IsWhiteSpace(s[i])
  {
    if s != [] && IsWhiteSpace(s[0]) then
      var t := TrimStart(s[1..]);
      assert s[1..][|s| - 1 - |t|..] == s[|s| - |t|..];
      assert forall i :: 1 <= i < |s| - |t| ==> s[i] == s[1..][i - 1];
      t
    else s
  }

  function TrimEnd(s: string): (t: string)
    ensures |t| <= |s| && t == s[..|t|]
    ensures t != [] ==> !IsWhiteSpace(t[|t| - 1])
    ensures forall i :: |t| <= i < |s| ==> IsWhiteSpace(s[i])
  {
    if s != [] && IsWhiteSpace(s[|s| - 1]) then TrimEnd(s[..|s| - 1]) else s
  }

  /** The text between leading and trailing white space. */
  function Trim(s: string): string
  {
    TrimEnd(TrimStart(s))
  }

  /** The first offset of `a` or `b` in `s`, or `|s|` when there is none. */
  function FirstOf(s: string, a: char, b: char): (k: nat)
    ensures k <= |s|
    ensures k < |s| ==> s[k] == a || s[k] == b
    ensures forall i :: 0 <= i < k ==> s[i] != a && s[i] != b
  {
    if s == [] then 0 else if s[0] == a || s[0] == b then 0 else 1 + FirstOf(s[1..], a, b)
  }

  /** `FirstOf` finds the first occurrence, and only that. */
  lemma {:induction false} FirstOfIs(s: string, a: char, b: char, k: nat)
    requires k <= |s|
    requires k < |s| ==> s[k] == a || s[k] == b
    requires forall i :: 0 <= i < k ==> s[i] != a && s[i] != b
    ensures FirstOf(s, a, b) == k
  {
    if s != [] && k > 0 {
      FirstOfIs(s[1..], a, b, k - 1);
    }
  }

  /** SignedInteger: an optional sign followed by DecimalDigits. */
  predicate IsSignedInteger(s: string)
  {
    if |s| > 0 && (s[0] == '+' || s[0] == '-') then IsDigits(s[1..]) else IsDigits(s)
  }

  /** The part before an exponent: `1`, `1.`, `1.5` or `.5`. */
  predicate IsMantissa(m: string)
  {
    var d := FirstOf(m, '.', '.');
    if d == |m| then IsDigits(m)
    else AllDigits(m[..d]) && AllDigits(m[d + 1..]) && |m| >= 2
  }

  /** StrUnsignedDecimalLiteral: `Infinity`, or a mantissa with an optional ExponentPart. */
  predicate IsUnsignedDecimal(u: string)
  {
    u == "Infinity" ||
    var e := FirstOf(u, 'e', 'E');
    IsMantissa(u[..e]) && (e == |u| || IsSignedInteger(u[e + 1..]))
  }

  /** StrDecimalLiteral: an optional sign followed by StrUnsignedDecimalLiteral. */
  predicate IsStrDecimal(t: string)
  {
    if |t| > 0 && (t[0] == '+' || t[0] == '-') then IsUnsignedDecimal(t[1..]) else IsUnsignedDecimal(t)
  }

  /** NonDecimalIntegerLiteral without separators: `0b…`, `0o…`, `0x…`. */
  predicate IsNonDecimalInteger(t: string)
  {
    && |t| >= 3 && t[0] == '0'
    && ( ((t[1] == 'b' || t[1] == 'B') && forall i :: 2 <= i < |t| ==> IsBinaryDigit(t[i]))
      || ((t[1] == 'o' || t[1] == 'O') && forall i :: 2 <= i < |t| ==> IsOctalDigit(t[i]))
      || ((t[1] == 'x' || t[1] == 'X') && forall i :: 2 <= i < |t| ==> IsHexDigit(t[i])))
  }

  /** `!isNaN(s)`: the trimmed text is empty (it converts to 0) or a numeric literal. */
  predicate IsNumeric(s: string)
  {
    var t := Trim(s);
    t == "" || IsNonDecimalInteger(t) || IsStrDecimal(t)
  }

  /** Every character a numeric-looking string can contain. */
  predicate InNumericAlphabet(c: char)
  {
    IsWhiteSpace(c) || IsHexDigit(c) || c in "+-.xXoOInity"
  }

  /** Text without surrounding white space is its own trimmed text. */
  lemma TrimUnchanged(s: string)
    requires s != [] && !IsWhiteSpace(s[0]) && !IsWhiteSpace(s[|s| - 1])
    ensures Trim(s) == s
  {
  }

  /** A plain run of decimal digits converts to a number. */
  lemma DigitsAreNumeric(s: string)
    requires IsDigits(s)
    ensures IsNumeric(s)
  {
    TrimUnchanged(s);
    assert s[..|s|] == s;
  }

  lemma FractionIsMantissa(whole: string, frac: string)
    requires IsDigits(whole) && IsDigits(frac)
    ensures IsMantissa(whole + "." + frac)
  {
    var u := whole + "." + frac;
    assert forall i :: 0 <= i < |whole| ==> u[i] == whole[i];
    FirstOfIs(u, '.', '.', |whole|);
    assert u[..|whole|] == whole;
    assert u[|whole| + 1..] == frac;
  }

  lemma FractionIsUnsigned(whole: string, frac: string)
    requires IsDigits(whole) && IsDigits(frac)
    ensures IsUnsignedDecimal(whole + "." + frac)
  {
    var u := whole + "." + frac;
    FractionIsMantissa(whole, frac);
    MantissaAlphabet(u);
    FirstOfIs(u, 'e', 'E', |u|);
    assert u[..|u|] == u;
  }

  /** Text made only of white space converts to 0, so `add` skips a master
      value such as "  " as numeric-looking. */
  lemma {:induction false} BlankIsNumeric(s: string)
    requires forall i :: 0 <= i < |s| ==> IsWhiteSpace(s[i])
    ensures Trim(s) == ""
    ensures IsNumeric(s)
    decreases |s|
  {
    if s != [] {
      BlankIsNumeric(s[1..]);
    }
  }

  /** A signed decimal fraction such as "-3.5" converts to a number. */
  lemma SignedFractionIsNumeric(sign: char, whole: string, frac: string)
    requires sign == '+' || sign == '-'
    requires IsDigits(whole) && IsDigits(frac)
    ensures IsNumeric([sign] + whole + "." + frac)
  {
    var u := whole + "." + frac;
    var s := [sign] + whole + "." + frac;
    assert s == [sign] + u;
    assert s[|s| - 1] == frac[|frac| - 1];
    assert !IsWhiteSpace(s[0]) && !IsWhiteSpace(s[|s| - 1]);
    TrimUnchanged(s);
    assert s[1..] == u;
    FractionIsUnsigned(whole, frac);
  }

  /** The characters of a mantissa are digits and one dot. */
  lemma MantissaAlphabet(m: string)
    requires IsMantissa(m)
    ensures forall i :: 0 <= i < |m| ==> IsDecimalDigit(m[i]) || m[i] == '.'
  {
    var d := FirstOf(m, '.', '.');
    if d < |m| {
      forall i | 0 <= i < |m| ensures IsDecimalDigit(m[i]) || m[i] == '.' {
        if i < d {
          assert m[..d][i] == m[i];
        } else if i > d {
          assert m[d + 1..][i - d - 1] == m[i];
        }
      }
    }
  }

  /** The characters of a signed integer are digits and a leading sign. */
  lemma SignedIntegerAlphabet(x: string)
    requires IsSignedInteger(x)
    ensures forall i :: 0 <= i < |x| ==> IsDecimalDigit(x[i]) || x[i] == '+' || x[i] == '-'
  {
    if |x| > 0 && (x[0] == '+' || x[0] == '-') {
      forall i | 1 <= i < |x| ensures IsDecimalDigit(x[i]) {
        assert x[1..][i - 1] == x[i];
      }
    }
  }

  lemma UnsignedAlphabet(u: string)
    requires IsUnsignedDecimal(u)
    ensures forall i :: 0 <= i < |u| ==> InNumericAlphabet(u[i])
  {
    if u == "Infinity" {
      forall i | 0 <= i < |u| ensures InNumericAlphabet(u[i]) {
        assert u[i] in "Infinity";
      }
    } else {
      var e := FirstOf(u, 'e', 'E');
      var m := u[..e];
      MantissaAlphabet(m);
      forall i | 0 <= i < |u| ensures InNumericAlphabet(u[i]) {
        if i < e {
          assert u[i] == m[i];
        } else if i > e {
          var x := u[e + 1..];
          SignedIntegerAlphabet(x);
          assert u[i] == x[i - e - 1];
        }
      }
    }
  }

  /** The trimmed text of a numeric-looking string is drawn from the alphabet. */
  lemma LiteralAlphabet(t: string)
    requires t == "" || IsNonDecimalInteger(t) || IsStrDecimal(t)
    ensures forall i :: 0 <= i < |t| ==> InNumericAlphabet(t[i])
  {
    if t == "" {
    } else if IsNonDecimalInteger(t) {
    } else if |t| > 0 && (t[0] == '+' || t[0] == '-') {
      UnsignedAlphabet(t[1..]);
      forall i | 1 <= i < |t| ensures InNumericAlphabet(t[i]) {
        assert t[1..][i - 1] == t[i];
      }
    } else {
      UnsignedAlphabet(t);
    }
  }

  /** A string holding any character outside the alphabet, such as an ordinary
      word ("Hello" has `H` and `l`), is not numeric-looking. */
  lemma NumericUsesAlphabet(s: string)
    ensures IsNumeric(s) ==> forall i :: 0 <= i < |s| ==> InNumericAlphabet(s[i])
  {
    if IsNumeric(s) {
      var a := TrimStart(s);
      var t := TrimEnd(a);
      var lo := |s| - |a|;
      LiteralAlphabet(t);
      forall i | 0 <= i < |s| ensures InNumericAlphabet(s[i]) {
        if lo <= i < lo + |t| {
          assert s[i] == a[i - lo] == t[i - lo];
        } else if i >= lo + |t| {
          assert s[i] == a[i - lo];
        }
      }
    }
  }
}

=== FILE: pipeline.dfy ===
/** The run of `execute` between reading and writing: walk the master (the
    first configured locale) from its root with an empty breadcrumb, then apply
    `add` to every leaf, and hand back each locale with its translations. */
module Pipeline {
  import opened Wrappers
  import opened JsonTree
  import opened Denylist
  import opened Numeric
  import opened Lookup
  import opened Traversal
  import opened Resolver

  /** `handleObject(files[0].json, "")` and the `add` calls it makes. A failed
      walk aborts the run, so no locale gets any output. */
  function Execute(files: seq<Locale>): Result<seq<Locale>, ExtractError>
  {
    if |files| == 0 then Err(NoMaster)
    else match HandleObject(files[0].tree, "")
      case Err(e) => Err(e)
      case Ok(ls) => Ok(AddAll(SourceFilter, ls, files))
  }

  /** Every locale starts with an empty map, as the configuration declares. */
  predicate Fresh(files: seq<Locale>)
  {
    forall x :: 0 <= x < |files| ==> files[x].translations == map[]
  }

  /** The leaves of the master walk of a successful run. */
  function MasterLeaves(files: seq<Locale>): seq<Leaf>
    requires Execute(files).Ok?
  {
    HandleObject(files[0].tree, "").value
  }

  /** The run fails exactly when there is no master or the master holds a `null`
      somewhere (any `null` is reached, and `Object.entries(null)` throws). */
  lemma ExecuteFailsIffNull(files: seq<Locale>)
    ensures Execute(files).Err? <==> |files| == 0 || HasNull(files[0].tree)
    ensures Execute(files).Err? && |files| > 0 ==> Execute(files).error == NullNotObject
  {
    if |files| > 0 {
      HandleObjectShape(files[0].tree, "");
    }
  }

  /** After a run from empty maps, every locale's map has the same keys: the
      master values of the leaves that store (eligible, and not `__proto__`). */
  lemma ExecuteKeys(files: seq<Locale>)
    requires Fresh(files)
    requires Execute(files).Ok?
    ensures SameKeys(Execute(files).value)
    ensures forall x :: 0 <= x < |files| ==>
      Execute(files).value[x].translations.Keys == StoredValues(SourceFilter, MasterLeaves(files))
  {
    var ls := MasterLeaves(files);
    forall x | 0 <= x < |files|
      ensures Execute(files).value[x].translations.Keys == StoredValues(SourceFilter, ls)
    {
      AddAllKeys(SourceFilter, ls, files, x);
    }
  }

  /** No key of any locale's map is empty, numeric-looking or denylisted. */
  lemma ExecuteExcludes(files: seq<Locale>)
    requires Fresh(files)
    ensures Execute(files).Ok? ==> forall x, v :: 0 <= x < |files| && v in Execute(files).value[x].translations ==>
      v != "" && v != ProtoKey && !IsNumeric(v) && !IsBlacklisted(v)
  {
    if Execute(files).Ok? {
      ExecuteKeys(files);
      forall x, v | 0 <= x < |files| && v in Execute(files).value[x].translations
        ensures v != "" && v != ProtoKey && !IsNumeric(v) && !IsBlacklisted(v)
      {
        var l :| l in MasterLeaves(files) && Stores(SourceFilter, l) && l.value == v;
        assert !SourceFilter.numeric(l.value) && !SourceFilter.denied(l.value);
      }
    }
  }

  /** Every key is a string of the master document (unless the master is itself
      a string, whose characters are walked instead). */
  lemma ExecuteKeysFromMaster(files: seq<Locale>)
    requires Fresh(files)
    ensures Execute(files).Ok? && !files[0].tree.JStr? ==>
      forall x, v :: 0 <= x < |files| && v in Execute(files).value[x].translations ==> v in Texts(files[0].tree)
  {
    if Execute(files).Ok? && !files[0].tree.JStr? {
      ExecuteKeys(files);
      HandleObjectShape(files[0].tree, "");
      forall x, v | 0 <= x < |files| && v in Execute(files).value[x].translations
        ensures v in Texts(files[0].tree)
      {
        StoredValuesAreValues(SourceFilter, MasterLeaves(files), v);
      }
    }
  }

  /** What a run records: for each key, the value each locale's document holds
      at the breadcrumb of the last storing leaf with that master value, or the
      empty string where that path is missing or falsy. */
  lemma ExecuteValues(files: seq<Locale>, x: nat, v: string)
    requires Fresh(files)
    requires x < |files|
    ensures Execute(files).Ok? && v in Execute(files).value[x].translations ==>
      var ls := MasterLeaves(files);
      var i := LastWrite(SourceFilter, ls, v);
      && 0 <= i < |ls|
      && Execute(files).value[x].translations[v] == Recorded(Get(files[x].tree, ls[i].breadcrumb))
      && (Get(files[x].tree, ls[i].breadcrumb).None? ==> Execute(files).value[x].translations[v] == JStr(""))
  {
    if Execute(files).Ok? {
      AddAllEffect(SourceFilter, MasterLeaves(files), files, x, v);
    }
  }

  /** Self round trip: when the master's keys are unique, non-empty and free
      of `.`, `[` and `]`, the master locale's map sends every recorded value to itself. */
  lemma MasterMapsToItself(files: seq<Locale>)
    requires Fresh(files)
    requires Execute(files).Ok?
    requires KeysOk(files[0].tree)
    ensures forall v :: v in Execute(files).value[0].translations ==>
      Execute(files).value[0].translations[v] == JStr(v)
  {
    var root := files[0].tree;
    var ls := MasterLeaves(files);
    var t := Execute(files).value[0].translations;
    forall v | v in t
      ensures t[v] == JStr(v)
    {
      ExecuteValues(files, 0, v);
      var l := ls[LastWrite(SourceFilter, ls, v)];
      LeafResolves(root, l);
    }
  }

  /** The configured locales: the English master and Latin-American Spanish,
      each holding its parsed document and an empty map. */
  function Configured(en: Json, es: Json): (files: seq<Locale>)
    ensures |files| == 2 && Fresh(files)
    ensures files[0].tree == en && files[1].tree == es
  {
    [ Locale("en", "questionnaire_en-US_v62.json", en, map[]),
      Locale("es", "questionnaire_es-419_v62.json", es, map[]) ]
  }

  /** The configured run: it fails exactly when the English document holds a
      `null`; otherwise both maps have the same keys, and with plain unique keys
      in the English document its map sends each key to itself. */
  lemma ConfiguredRun(en: Json, es: Json)
    ensures Execute(Configured(en, es)).Err? <==> HasNull(en)
    ensures Execute(Configured(en, es)).Ok? ==>
      Execute(Configured(en, es)).value[0].translations.Keys == Execute(Configured(en, es)).value[1].translations.Keys
    ensures Execute(Configured(en, es)).Ok? && KeysOk(en) ==>
      forall v :: v in Execute(Configured(en, es)).value[0].translations ==>
        Execute(Configured(en, es)).value[0].translations[v] == JStr(v)
  {
    var files := Configured(en, es);
    ExecuteFailsIffNull(files);
    if Execute(files).Ok? {
      ExecuteKeys(files);
      if KeysOk(en) {
        MasterMapsToItself(files);
      }
    }
  }
}

=== FILE: resolver.dfy ===
/** `add(key, masterValue, breadcrumb)`: the filter and the cross-document
    lookup, and its repetition over the leaves of the walk. */
module Resolver {
  import opened Wrappers
  import opened JsonTree
  import opened Denylist
  import opened Numeric
  import opened Lookup
  import opened Traversal

  /** One configured locale: its code, its input file, its parsed document and
      the translations collected for it, keyed by master value. */
  datatype Locale = Locale(locale: string, filename: string, tree: Json, translations: map<string, Json>)

  /** The two tests `add` applies to strings: "looks numeric" (`!isNaN`) and
      "is on the denylist" (`isBlacklisted`). They enter as values so that the
      fold can be reasoned about without unfolding them. */
  datatype Filter = Filter(numeric: string -> bool, denied: string -> bool)

  /** The tests of `index.ts`. */
  const SourceFilter: Filter := Filter(IsNumeric, IsBlacklisted)

  /** The guards of `add`: a non-empty, non-numeric master value, with neither
      the key, the value nor the breadcrumb on the denylist. */
  predicate Eligible(f: Filter, l: Leaf)
  {
    && l.value != ""
    && !f.numeric(l.value)
    && !f.denied(l.key)
    && !f.denied(l.value)
    && !f.denied(l.breadcrumb)
  }

  /** The one name `translations[name] = …` does not store under: on a `{}`
      record it calls the inherited `__proto__` setter instead, which creates no
      own key (and `JSON.stringify` writes only own keys). */
  const ProtoKey: string := "__proto__"

  /** A leaf whose call to `add` leaves an entry in the maps: it passes the
      guards and its master value is not `__proto__`. */
  predicate Stores(f: Filter, l: Leaf)
  {
    Eligible(f, l) && l.value != ProtoKey
  }

  /** `translationValue || ""`: a falsy or missing result becomes the empty
      string, anything else is stored as found. */
  function Recorded(found: Option<Json>): (r: Json)
    ensures found.None? ==> r == JStr("")
    ensures found.Some? && found.value.JStr? ==> r == found.value
    ensures r == JStr("") || (found.Some? && r == found.value && Truthy(r))
    ensures found.Some? && Truthy(found.value) ==> r == found.value
    ensures found.Some? && !Truthy(found.value) ==> r == JStr("")
  {
    if found.Some? && Truthy(found.value) then found.value else JStr("")
  }

  /** `add(l.key, l.value, l.breadcrumb)` over the configured locales. An
      ineligible leaf changes nothing, nor does a write under `__proto__`; any
      other eligible leaf sets, in every locale, the entry for the master value
      to what that locale's document holds at the breadcrumb, and leaves every
      other entry and every other field alone. */
  function Add(f: Filter, l: Leaf, files: seq<Locale>): (r: seq<Locale>)
    ensures |r| == |files|
    ensures forall x :: 0 <= x < |files| ==>
      r[x].locale == files[x].locale && r[x].filename == files[x].filename && r[x].tree == files[x].tree
    ensures !Eligible(f, l) ==> r == files
    ensures l.value == ProtoKey ==> r == files
    ensures Stores(f, l) ==> forall x :: 0 <= x < |files| ==>
      && r[x].translations.Keys == files[x].translations.Keys + {l.value}
      && r[x].translations[l.value] == Recorded(Get(files[x].tree, l.breadcrumb))
      && forall v :: v in files[x].translations && v != l.value ==>
           r[x].translations[v] == files[x].translations[v]
  {
    if !Stores(f, l) then files else
    seq(|files|, x requires 0 <= x < |files| =>
      files[x].(translations := files[x].translations[l.value := Recorded(Get(files[x].tree, l.breadcrumb))]))
  }

  /** `add` called on each leaf in turn, first leaf first. */
  function AddAll(f: Filter, ls: seq<Leaf>, files: seq<Locale>): (r: seq<Locale>)
    ensures |r| == |files|
    ensures forall x :: 0 <= x < |files| ==>
      r[x].locale == files[x].locale && r[x].filename == files[x].filename && r[x].tree == files[x].tree
  {
    if ls == [] then files else Add(f, ls[|ls| - 1], AddAll(f, ls[..|ls| - 1], files))
  }

  /** The position of the last storing leaf whose master value is `v`, or -1. */
  function LastWrite(f: Filter, ls: seq<Leaf>, v: string): (i: int)
    ensures -1 <= i < |ls|
    ensures i >= 0 ==> Stores(f, ls[i]) && ls[i].value == v
    ensures forall k :: i < k < |ls| ==> !(Stores(f, ls[k]) && ls[k].value == v)
  {
    if ls == [] then -1
    else if Stores(f, ls[|ls| - 1]) && ls[|ls| - 1].value == v then |ls| - 1
    else LastWrite(f, ls[..|ls| - 1], v)
  }

  /** The master values `add` records. */
  function StoredValues(f: Filter, ls: seq<Leaf>): set<string>
  {
    set l | l in ls && Stores(f, l) :: l.value
  }

  /** Every recorded master value is the value of some leaf. */
  lemma StoredValuesAreValues(f: Filter, ls: seq<Leaf>, v: string)
    requires v in StoredValues(f, ls)
    ensures v in Values(ls)
  {
    var l :| l in ls && Stores(f, l) && l.value == v;
    var k :| 0 <= k < |ls| && ls[k] == l;
    assert Values(ls)[k] == v;
  }

  /** Last writer wins: after the fold, a master value written by some storing
      leaf maps, in each locale, to what that locale holds at the breadcrumb of
      the LAST such leaf; every other entry is as it was before. */
  lemma {:induction false} AddAllEffect(f: Filter, ls: seq<Leaf>, files: seq<Locale>, x: nat, v: string)
    requires x < |files|
    ensures var t, t0 := AddAll(f, ls, files)[x].translations, files[x].translations;
      var i := LastWrite(f, ls, v);
      && (i >= 0 ==> v in t && t[v] == Recorded(Get(files[x].tree, ls[i].breadcrumb)))
      && (i < 0 ==> (v in t <==> v in t0) && (v in t0 ==> t[v] == t0[v]))
  {
    if ls != [] {
      var pre := ls[..|ls| - 1];
      AddAllEffect(f, pre, files, x, v);
      if LastWrite(f, ls, v) != |ls| - 1 {
        assert LastWrite(f, ls, v) == LastWrite(f, pre, v);
        if LastWrite(f, pre, v) >= 0 {
          assert ls[LastWrite(f, pre, v)] == pre[LastWrite(f, pre, v)];
        }
      }
    }
  }

  /** A value is a key of a locale's map after the fold exactly when it was one
      before or some storing leaf carries it. */
  lemma AddAllKeys(f: Filter, ls: seq<Leaf>, files: seq<Locale>, x: nat)
    requires x < |files|
    ensures AddAll(f, ls, files)[x].translations.Keys == files[x].translations.Keys + StoredValues(f, ls)
  {
    forall v ensures v in AddAll(f, ls, files)[x].translations <==> v in files[x].translations || v in StoredValues(f, ls)
    {
      AddAllEffect(f, ls, files, x, v);
      var i := LastWrite(f, ls, v);
      if v in StoredValues(f, ls) {
        var l :| l in ls && Stores(f, l) && l.value == v;
        var k :| 0 <= k < |ls| && ls[k] == l;
        assert i >= k;
      }
      if i >= 0 {
        assert ls[i] in ls;
      }
    }
  }

  /** Locales whose maps share one key set. */
  predicate SameKeys(files: seq<Locale>)
  {
    forall x, y :: 0 <= x < |files| && 0 <= y < |files| ==>
      files[x].translations.Keys == files[y].translations.Keys
  }

  /** Because every storing leaf writes to every locale, the fold keeps the
      locales' key sets equal. */
  lemma AddAllKeepsSameKeys(f: Filter, ls: seq<Leaf>, files: seq<Locale>)
    requires SameKeys(files)
    ensures SameKeys(AddAll(f, ls, files))
  {
    forall x, y | 0 <= x < |files| && 0 <= y < |files|
      ensures AddAll(f, ls, files)[x].translations.Keys == AddAll(f, ls, files)[y].translations.Keys
    {
      AddAllKeys(f, ls, files, x);
      AddAllKeys(f, ls, files, y);
    }
  }
}

=== FILE: traversal.dfy ===
/** The depth-first walk of the master document (`handleObject`, `handleArray`).
    Instead of calling `add` on the way, the walk returns the `(key, value,
    breadcrumb)` triples it would pass to `add`, in call order; `add` only reads
    the trees, so folding it over this sequence afterwards is the same run. */
module Traversal {
  import opened Wrappers
  import opened JsonTree
  import opened Numeric
  import opened Lookup

  /** One call `add(key, value, breadcrumb)`. */
  datatype Leaf = Leaf(key: string, value: string, breadcrumb: string)

  /** Why a run aborts: `Object.entries(null)` throws a TypeError (reached
      because `typeof null === "object"`), or there is no master document. */
  datatype ExtractError = NullNotObject | NoMaster

  type Walked = Result<seq<Leaf>, ExtractError>

  /** Running one piece of the walk and then the next: the first failure wins,
      and a piece that adds nothing leaves the other unchanged. */
  function Then(a: Walked, b: Walked): (r: Walked)
    ensures a == Ok([]) ==> r == b
    ensures b == Ok([]) ==> r == a
  {
    if a.Err? then a
    else if b.Err? then b
    else
      assert a.value == [] ==> a.value + b.value == b.value;
      assert b.value == [] ==> a.value + b.value == a.value;
      Ok(a.value + b.value)
  }

  /** How the walk is split into pieces does not matter. */
  lemma ThenAssociative(a: Walked, b: Walked, c: Walked)
    ensures Then(Then(a, b), c) == Then(a, Then(b, c))
  {
    if a.Ok? && b.Ok? && c.Ok? {
      assert (a.value + b.value) + c.value == a.value + (b.value + c.value);
    }
  }

  /** The breadcrumb of an object member: the bare key below an empty breadcrumb
      (the root, but also a member named "" at the root, or below a chain of
      such members, whose own breadcrumb therefore came out empty). */
  function ChildCrumb(breadcrumb: string, key: string): string
  {
    if breadcrumb == "" then key else breadcrumb + "." + key
  }

  /** The breadcrumb of an array element: always parent, dot, index. */
  function ItemCrumb(breadcrumb: string, k: nat): string
  {
    breadcrumb + "." + Decimal(k)
  }

  /** `handleObject(j, breadcrumb)`: iterate `Object.entries(j)`. For parsed
      values that is the members of an object, the index/element pairs of an
      array, the index/character pairs of a string (all of which are strings),
      nothing for a number or a boolean, and a TypeError for `null`. */
  function HandleObject(j: Json, breadcrumb: string): Walked
    decreases j, 0
  {
    match j
    case JNull => Err(NullNotObject)
    case JObj(es) => ObjectEntries(es, 0, breadcrumb)
    case JArr(items) => ArrayEntries(items, 0, breadcrumb)
    case JStr(s) => Ok(CharLeaves(s, breadcrumb))
    case JBool(_) => Ok([])
    case JNum(_) => Ok([])
  }

  /** The members of an object from entry `i` on. */
  function ObjectEntries(es: seq<(string, Json)>, i: nat, breadcrumb: string): Walked
    requires i <= |es|
    decreases es, |es| - i
  {
    if i == |es| then Ok([])
    else
      var e := es[i];
      assert e in es;
      assert es decreases to e;
      Then(ObjectMember(e.0, e.1, breadcrumb), ObjectEntries(es, i + 1, breadcrumb))
  }

  /** `Object.entries` of an array: its elements with their indices as keys. */
  function ArrayEntries(items: seq<Json>, i: nat, breadcrumb: string): Walked
    requires i <= |items|
    decreases items, |items| - i
  {
    if i == |items| then Ok([])
    else Then(ObjectMember(Decimal(i), items[i], breadcrumb), ArrayEntries(items, i + 1, breadcrumb))
  }

  /** The loop body of `handleObject` for one `[key, value]` entry. */
  function ObjectMember(key: string, value: Json, breadcrumb: string): Walked
    decreases value, 1
  {
    var crumb := ChildCrumb(breadcrumb, key);
    match value
    case JStr(s) => Ok([Leaf(key, s, crumb)])
    case JArr(items) => HandleArray(items, 0, crumb)
    case JObj(_) => HandleObject(value, crumb)
    case JNull => HandleObject(value, crumb)
    case JBool(_) => Ok([])
    case JNum(_) => Ok([])
  }

  /** The characters of a string walked as an object (only at the root). */
  function CharLeaves(s: string, breadcrumb: string): (ls: seq<Leaf>)
    ensures |ls| == |s|
    ensures forall i :: 0 <= i < |s| ==>
      ls[i] == Leaf(Decimal(i), [s[i]], ChildCrumb(breadcrumb, Decimal(i)))
  {
    seq(|s|, i requires 0 <= i < |s| => Leaf(Decimal(i), [s[i]], ChildCrumb(breadcrumb, Decimal(i))))
  }

  /** `handleArray(items, breadcrumb)` from index `k` on. */
  function HandleArray(items: seq<Json>, k: nat, breadcrumb: string): Walked
    requires k <= |items|
    decreases items, |items| - k
  {
    if k == |items| then Ok([])
    else Then(ArrayItem(k, items[k], breadcrumb), HandleArray(items, k + 1, breadcrumb))
  }

  /** The loop body of `handleArray` for element `k`: a nested array goes to
      `handleObject` too, because only `typeof` is tested. */
  function ArrayItem(k: nat, value: Json, breadcrumb: string): Walked
    decreases value, 1
  {
    var crumb := ItemCrumb(breadcrumb, k);
    match value
    case JStr(s) => Ok([Leaf(Decimal(k), s, crumb)])
    case JObj(_) => HandleObject(value, crumb)
    case JArr(_) => HandleObject(value, crumb)
    case JNull => HandleObject(value, crumb)
    case JBool(_) => Ok([])
    case JNum(_) => Ok([])
  }

  /** The master values of a run of leaves. */
  function Values(ls: seq<Leaf>): (vs: seq<string>)
    ensures |vs| == |ls|
    ensures forall i :: 0 <= i < |ls| ==> vs[i] == ls[i].value
  {
    seq(|ls|, i requires 0 <= i < |ls| => ls[i].value)
  }

  lemma ValuesConcat(a: seq<Leaf>, b: seq<Leaf>)
    ensures Values(a + b) == Values(a) + Values(b)
  {
  }

  /** The key handed to `add` is the last piece of the breadcrumb. */
  predicate KeyEndsCrumb(l: Leaf)
  {
    l.breadcrumb == l.key ||
    (|l.key| + 1 <= |l.breadcrumb| && l.breadcrumb[|l.breadcrumb| - |l.key| - 1..] == "." + l.key)
  }

  predicate AllKeysEndCrumbs(ls: seq<Leaf>)
  {
    forall l :: l in ls ==> KeyEndsCrumb(l)
  }

  lemma KeyEndsChildCrumb(breadcrumb: string, key: string, value: string)
    ensures KeyEndsCrumb(Leaf(key, value, ChildCrumb(breadcrumb, key)))
  {
    if breadcrumb != "" {
      var c := breadcrumb + "." + key;
      assert c[|c| - |key| - 1..] == "." + key;
    }
  }

  lemma KeyEndsItemCrumb(breadcrumb: string, k: nat, value: string)
    ensures KeyEndsCrumb(Leaf(Decimal(k), value, ItemCrumb(breadcrumb, k)))
  {
    var c := ItemCrumb(breadcrumb, k);
    assert c[|c| - |Decimal(k)| - 1..] == "." + Decimal(k);
  }

  /** The walk below a node fails exactly when a `null` is reachable; otherwise
      it yields that node's strings in document order, each with a key that ends
      its breadcrumb. A string root is walked character by character. */
  lemma {:induction false} HandleObjectShape(j: Json, breadcrumb: string)
    ensures HandleObject(j, breadcrumb).Err? ==> HandleObject(j, breadcrumb).error == NullNotObject
    ensures HandleObject(j, breadcrumb).Err? <==> HasNull(j)
    ensures HandleObject(j, breadcrumb).Ok? ==> AllKeysEndCrumbs(HandleObject(j, breadcrumb).value)
    ensures HandleObject(j, breadcrumb).Ok? && !j.JStr? ==> Values(HandleObject(j, breadcrumb).value) == Texts(j)
    decreases j, 0
  {
    match j
    case JObj(es) =>
      ObjectEntriesShape(es, 0, breadcrumb);
      assert es[0..] == es;
    case JArr(items) =>
      ArrayEntriesShape(items, 0, breadcrumb);
      assert items[0..] == items;
    case JStr(s) =>
      forall i | 0 <= i < |s| {
        KeyEndsChildCrumb(breadcrumb, Decimal(i), [s[i]]);
      }
    case _ =>
  }

  lemma {:induction false} ObjectEntriesShape(es: seq<(string, Json)>, i: nat, breadcrumb: string)
    requires i <= |es|
    ensures ObjectEntries(es, i, breadcrumb).Err? ==> ObjectEntries(es, i, breadcrumb).error == NullNotObject
    ensures ObjectEntries(es, i, breadcrumb).Err? <==> exists m :: i <= m < |es| && HasNull(es[m].1)
    ensures ObjectEntries(es, i, breadcrumb).Ok? ==>
      && AllKeysEndCrumbs(ObjectEntries(es, i, breadcrumb).value)
      && Values(ObjectEntries(es, i, breadcrumb).value) == EntryTexts(es[i..])
    decreases es, |es| - i
  {
    if i < |es| {
      var e := es[i];
      assert e in es;
      assert es decreases to e;
      ObjectMemberShape(e.0, e.1, breadcrumb);
      ObjectEntriesShape(es, i + 1, breadcrumb);
      assert es[i..][0] == e && es[i..][1..] == es[i + 1..];
      var a, b := ObjectMember(e.0, e.1, breadcrumb), ObjectEntries(es, i + 1, breadcrumb);
      if a.Ok? && b.Ok? {
        ValuesConcat(a.value, b.value);
      }
    }
  }

  lemma {:induction false} ArrayEntriesShape(items: seq<Json>, i: nat, breadcrumb: string)
    requires i <= |items|
    ensures ArrayEntries(items, i, breadcrumb).Err? ==> ArrayEntries(items, i, breadcrumb).error == NullNotObject
    ensures ArrayEntries(items, i, breadcrumb).Err? <==> exists m :: i <= m < |items| && HasNull(items[m])
    ensures ArrayEntries(items, i, breadcrumb).Ok? ==>
      && AllKeysEndCrumbs(ArrayEntries(items, i, breadcrumb).value)
      && Values(ArrayEntries(items, i, breadcrumb).value) == ItemTexts(items[i..])
    decreases items, |items| - i
  {
    if i < |items| {
      ObjectMemberShape(Decimal(i), items[i], breadcrumb);
      ArrayEntriesShape(items, i + 1, breadcrumb);
      assert items[i..][0] == items[i] && items[i..][1..] == items[i + 1..];
      var a, b := ObjectMember(Decimal(i), items[i], breadcrumb), ArrayEntries(items, i + 1, breadcrumb);
      if a.Ok? && b.Ok? {
        ValuesConcat(a.value, b.value);
      }
    }
  }

  lemma {:induction false} ObjectMemberShape(key: string, value: Json, breadcrumb: string)
    ensures ObjectMember(key, value, breadcrumb).Err? ==> ObjectMember(key, value, breadcrumb).error == NullNotObject
    ensures ObjectMember(key, value, breadcrumb).Err? <==> HasNull(value)
    ensures ObjectMember(key, value, breadcrumb).Ok? ==>
      && AllKeysEndCrumbs(ObjectMember(key, value, breadcrumb).value)
      && Values(ObjectMember(key, value, breadcrumb).value) == Texts(value)
    decreases value, 1
  {
    var crumb := ChildCrumb(breadcrumb, key);
    match value
    case JStr(s) => KeyEndsChildCrumb(breadcrumb, key, s);
    case JArr(items) =>
      HandleArrayShape(items, 0, crumb);
      assert items[0..] == items;
    case JObj(_) => HandleObjectShape(value, crumb);
    case JNull => HandleObjectShape(value, crumb);
    case _ =>
  }

  lemma {:induction false} HandleArrayShape(items: seq<Json>, k: nat, breadcrumb: string)
    requires k <= |items|
    ensures HandleArray(items, k, breadcrumb).Err? ==> HandleArray(items, k, breadcrumb).error == NullNotObject
    ensures HandleArray(items, k, breadcrumb).Err? <==> exists m :: k <= m < |items| && HasNull(items[m])
    ensures HandleArray(items, k, breadcrumb).Ok? ==>
      && AllKeysEndCrumbs(HandleArray(items, k, breadcrumb).value)
      && Values(HandleArray(items, k, breadcrumb).value) == ItemTexts(items[k..])
    decreases items, |items| - k
  {
    if k < |items| {
      ArrayItemShape(k, items[k], breadcrumb);
      HandleArrayShape(items, k + 1, breadcrumb);
      assert items[k..][0] == items[k] && items[k..][1..] == items[k + 1..];
      var a, b := ArrayItem(k, items[k], breadcrumb), HandleArray(items, k + 1, breadcrumb);
      if a.Ok? && b.Ok? {
        ValuesConcat(a.value, b.value);
      }
    }
  }

  lemma {:induction false} ArrayItemShape(k: nat, value: Json, breadcrumb: string)
    ensures ArrayItem(k, value, breadcrumb).Err? ==> ArrayItem(k, value, breadcrumb).error == NullNotObject
    ensures ArrayItem(k, value, breadcrumb).Err? <==> HasNull(value)
    ensures ArrayItem(k, value, breadcrumb).Ok? ==>
      && AllKeysEndCrumbs(ArrayItem(k, value, breadcrumb).value)
      && Values(ArrayItem(k, value, breadcrumb).value) == Texts(value)
    decreases value, 1
  {
    var crumb := ItemCrumb(breadcrumb, k);
    match value
    case JStr(s) => KeyEndsItemCrumb(breadcrumb, k, s);
    case JObj(_) => HandleObjectShape(value, crumb);
    case JArr(_) => HandleObjectShape(value, crumb);
    case JNull => HandleObjectShape(value, crumb);
    case _ =>
  }

  /** `breadcrumb` names `j` inside `root`: the empty breadcrumb is the root itself. */
  predicate Addressed(root: Json, breadcrumb: string, j: Json)
  {
    if breadcrumb == "" then j == root else Get(root, breadcrumb) == Some(j)
  }

  /** Every leaf's breadcrumb leads back to the leaf's string in `root`. */
  predicate Resolves(root: Json, w: Walked)
  {
    w.Ok? ==> forall l :: l in w.value ==> Get(root, l.breadcrumb) == Some(JStr(l.value))
  }

  /** Joining two pieces of the walk keeps every breadcrumb resolving. */
  lemma ThenResolves(root: Json, a: Walked, b: Walked)
    requires Resolves(root, a) && Resolves(root, b)
    ensures Resolves(root, Then(a, b))
  {
    if a.Ok? && b.Ok? {
      forall l | l in a.value + b.value
        ensures Get(root, l.breadcrumb) == Some(JStr(l.value))
      {
        assert l in a.value || l in b.value;
      }
    }
  }

  /** The breadcrumb of a member found by one step from an addressed node
      addresses that member. */
  lemma ChildAddressed(root: Json, breadcrumb: string, parent: Json, key: string, c: Json)
    requires Addressed(root, breadcrumb, parent)
    requires PlainKey(key)
    requires Step(parent, key) == Some(c)
    ensures ChildCrumb(breadcrumb, key) != ""
    ensures Get(root, ChildCrumb(breadcrumb, key)) == Some(c)
  {
    if breadcrumb == "" {
      GetTop(root, key);
    } else {
      GetChild(root, breadcrumb, key);
    }
  }

  /** An index names its element, in an array and in a string. */
  lemma StepIndex(j: Json, k: nat)
    ensures j.JArr? && k < |j.items| ==> Step(j, Decimal(k)) == Some(j.items[k])
    ensures j.JStr? && k < |j.s| ==> Step(j, Decimal(k)) == Some(JStr([j.s[k]]))
  {
    ParseDecimal(k);
    DecimalShape(k);
    assert Decimal(k) != "length" by {
      assert IsDecimalDigit(Decimal(k)[0]);
    }
  }

  /** Resolving a breadcrumb of the walk of `j` at `breadcrumb` yields the leaf. */
  lemma {:induction false} HandleObjectResolves(root: Json, j: Json, breadcrumb: string)
    requires Addressed(root, breadcrumb, j)
    requires KeysOk(j)
    ensures Resolves(root, HandleObject(j, breadcrumb))
    decreases j, 0
  {
    match j
    case JObj(es) => ObjectEntriesResolve(root, es, 0, breadcrumb);
    case JArr(items) => ArrayEntriesResolve(root, items, 0, breadcrumb);
    case JStr(s) =>
      forall i | 0 <= i < |s|
        ensures Get(root, ChildCrumb(breadcrumb, Decimal(i))) == Some(JStr([s[i]]))
      {
        StepIndex(j, i);
        DecimalIsPlain(i);
        ChildAddressed(root, breadcrumb, j, Decimal(i), JStr([s[i]]));
      }
    case _ =>
  }

  lemma {:induction false} ObjectEntriesResolve(root: Json, es: seq<(string, Json)>, i: nat, breadcrumb: string)
    requires i <= |es|
    requires Addressed(root, breadcrumb, JObj(es))
    requires KeysOk(JObj(es))
    ensures Resolves(root, ObjectEntries(es, i, breadcrumb))
    decreases es, |es| - i
  {
    if i < |es| {
      var e := es[i];
      assert e in es;
      assert es decreases to e;
      MemberValueAt(es, i);
      ChildAddressed(root, breadcrumb, JObj(es), e.0, e.1);
      ObjectMemberResolves(root, e.0, e.1, breadcrumb);
      ObjectEntriesResolve(root, es, i + 1, breadcrumb);
      ThenResolves(root, ObjectMember(e.0, e.1, breadcrumb), ObjectEntries(es, i + 1, breadcrumb));
    }
  }

  lemma {:induction false} ArrayEntriesResolve(root: Json, items: seq<Json>, i: nat, breadcrumb: string)
    requires i <= |items|
    requires Addressed(root, breadcrumb, JArr(items))
    requires KeysOk(JArr(items))
    ensures Resolves(root, ArrayEntries(items, i, breadcrumb))
    decreases items, |items| - i
  {
    if i < |items| {
      StepIndex(JArr(items), i);
      DecimalIsPlain(i);
      ChildAddressed(root, breadcrumb, JArr(items), Decimal(i), items[i]);
      ObjectMemberResolves(root, Decimal(i), items[i], breadcrumb);
      ArrayEntriesResolve(root, items, i + 1, breadcrumb);
      ThenResolves(root, ObjectMember(Decimal(i), items[i], breadcrumb), ArrayEntries(items, i + 1, breadcrumb));
    }
  }

  lemma {:induction false} ObjectMemberResolves(root: Json, key: string, value: Json, breadcrumb: string)
    requires ChildCrumb(breadcrumb, key) != ""
    requires Get(root, ChildCrumb(breadcrumb, key)) == Some(value)
    requires KeysOk(value)
    ensures Resolves(root, ObjectMember(key, value, breadcrumb))
    decreases value, 1
  {
    var crumb := ChildCrumb(breadcrumb, key);
    match value
    case JStr(s) =>
    case JArr(items) => HandleArrayResolves(root, items, 0, crumb);
    case JObj(_) => HandleObjectResolves(root, value, crumb);
    case JNull =>
    case _ =>
  }

  lemma {:induction false} HandleArrayResolves(root: Json, items: seq<Json>, k: nat, breadcrumb: string)
    requires k <= |items|
    requires breadcrumb != ""
    requires Get(root, breadcrumb) == Some(JArr(items))
    requires KeysOk(JArr(items))
    ensures Resolves(root, HandleArray(items, k, breadcrumb))
    decreases items, |items| - k
  {
    if k < |items| {
      StepIndex(JArr(items), k);
      DecimalIsPlain(k);
      GetChild(root, breadcrumb, Decimal(k));
      ArrayItemResolves(root, k, items[k], breadcrumb);
      HandleArrayResolves(root, items, k + 1, breadcrumb);
      ThenResolves(root, ArrayItem(k, items[k], breadcrumb), HandleArray(items, k + 1, breadcrumb));
    }
  }

  lemma {:induction false} ArrayItemResolves(root: Json, k: nat, value: Json, breadcrumb: string)
    requires Get(root, ItemCrumb(breadcrumb, k)) == Some(value)
    requires KeysOk(value)
    ensures Resolves(root, ArrayItem(k, value, breadcrumb))
    decreases value, 1
  {
    var crumb := ItemCrumb(breadcrumb, k);
    match value
    case JStr(s) =>
    case JObj(_) => HandleObjectResolves(root, value, crumb);
    case JArr(_) => HandleObjectResolves(root, value, crumb);
    case _ =>
  }

  /** Self round trip: when every key of the master is unique, non-empty and
      free of `.`, `[` and `]`, each breadcrumb the walk from the root produces leads back, through
      `get`, to exactly the string it was produced for. */
  lemma BreadcrumbsResolve(root: Json)
    requires KeysOk(root)
    ensures Resolves(root, HandleObject(root, ""))
  {
    HandleObjectResolves(root, root, "");
  }

  /** The round trip for one leaf of a successful walk from the root. */
  lemma LeafResolves(root: Json, l: Leaf)
    requires KeysOk(root)
    requires HandleObject(root, "").Ok? && l in HandleObject(root, "").value
    ensures Get(root, l.breadcrumb) == Some(JStr(l.value))
  {
    BreadcrumbsResolve(root);
  }

  /** Why the round trip needs non-empty keys: below a member named "" at the
      root the breadcrumb is empty again, so a nested member gets its bare key
      as breadcrumb and `get` looks for it at the root, where it is missing. */
  lemma EmptyKeyLosesParent(inner: string, s: string)
    requires PlainKey(inner)
    ensures var root := JObj([("", JObj([(inner, JStr(s))]))]);
      && HandleObject(root, "") == Ok([Leaf(inner, s, inner)])
      && Get(root, inner) == None
  {
    var child := JObj([(inner, JStr(s))]);
    var root := JObj([("", child)]);
    GetTop(root, inner);
    var leaf := Leaf(inner, s, inner);
    assert ObjectMember(inner, JStr(s), "") == Ok([leaf]);
    assert ObjectEntries([(inner, JStr(s))], 1, "") == Ok([]);
    assert [leaf] + [] == [leaf];
    assert Then(Ok([leaf]), Ok([])) == Ok([leaf]);
    assert ObjectEntries([(inner, JStr(s))], 0, "") == Ok([leaf]);
    assert HandleObject(child, "") == Ok([leaf]);
    assert ObjectMember("", child, "") == Ok([leaf]);
    assert ObjectEntries([("", child)], 1, "") == Ok([]);
    assert ObjectEntries([("", child)], 0, "") == Ok([leaf]);
  }

  /** Deeper down a member named "" keeps the parent: its breadcrumb is the
      parent's followed by a dot, so the nested leaf's path holds an empty
      segment, which `get` follows to the same string. */
  lemma EmptyKeyBelowRootKeepsParent(outer: string, inner: string, s: string)
    requires PlainKey(outer) && PlainKey(inner)
    ensures var root := JObj([(outer, JObj([("", JObj([(inner, JStr(s))]))]))]);
      && HandleObject(root, "") == Ok([Leaf(inner, s, outer + "." + "" + "." + inner)])
      && Get(root, outer + "." + "" + "." + inner) == Some(JStr(s))
  {
    var deep := JObj([(inner, JStr(s))]);
    var mid := JObj([("", deep)]);
    var root := JObj([(outer, mid)]);
    var crumb := outer + "." + "";
    var path := crumb + "." + inner;
    var leaf := Leaf(inner, s, path);
    assert [leaf] + [] == [leaf];
    assert ObjectEntries([(inner, JStr(s))], 1, crumb) == Ok([]);
    assert ObjectMember(inner, JStr(s), crumb) == Ok([leaf]);
    assert ObjectEntries([(inner, JStr(s))], 0, crumb) == Ok([leaf]);
    assert HandleObject(deep, crumb) == Ok([leaf]);
    assert ObjectMember("", deep, outer) == Ok([leaf]);
    assert ObjectEntries([("", deep)], 1, outer) == Ok([]);
    assert ObjectEntries([("", deep)], 0, outer) == Ok([leaf]);
    assert HandleObject(mid, outer) == Ok([leaf]);
    assert ObjectMember(outer, mid, "") == Ok([leaf]);
    assert ObjectEntries([(outer, mid)], 1, "") == Ok([]);
    assert ObjectEntries([(outer, mid)], 0, "") == Ok([leaf]);
    GetTop(root, outer);
    assert Get(root, outer) == Some(mid);
    GetChild(root, outer, "");
    assert Get(root, crumb) == Some(deep);
    GetChild(root, crumb, inner);
  }
}

=== FILE: wrappers.dfy ===
/** Failure-carrying datatypes used across the model. */
module Wrappers {

  /** A value that may be absent: lodash's `undefined` result of a lookup. */
  datatype Option<+T> = None | Some(value: T)

  /** The outcome of an operation that may throw. */
  datatype Result<+T, +E> = Ok(value: T) | Err(error: E)
}
